=== FILE: README.md ===
# Spaceship sketch: the per-frame simulation tick

A Dafny model of the simulation behind the animated spaceship canvas
(`Canvas/SpaceshipCanvas.jsx`). Every frame, p5 calls the sketch's `draw`
callback. With drawing removed, that callback is one sequential state
transition over a small record:

- the ship's position and velocity;
- the Perlin-noise offset;
- the frame of the last shot;
- four ordered pools: the trail, the obstacles, the bullets and the
  explosion particles.

The model writes this transition as a pure function, `Simulation.Tick`,
of the state, the frame number, the screen size and the values p5
supplies.

The phases run in source order:

1. Spawn gate: one obstacle every 100 frames, just outside a random edge.
2. Obstacles step towards the ship.
3. Hit pass: a nested filter in which each obstacle removes every bullet
   that hits it, with one explosion of 10 particles per removed bullet.
4. Particles are updated and the dead ones dropped.
5. Bullets fly and are pruned to the open screen rectangle.
6. Targeting: at most one shot per frame, gated by
   `frameCount - lastShot > 30`.
7. The ship steers.
8. The trail records the new position and keeps the newest 10.
9. The ship's velocity is damped and its position wrapped.

The modules follow the sketch's structure:

- `Vectors`: 2-D real vectors and squared-distance tests.
- `Seqs`: order-preserving filtering and subsequences, used for the
  sketch's `Array.filter`.
- `P5`: what the library supplies. The spawn draws are values in [0,1),
  each particle velocity is an arbitrary vector, and the noise and vector
  numerics are uninterpreted functions.
- `Entities`: the screen, obstacles, bullets and particles.
- `Particles`: the `Particle` class and `explode`.
- `Spawner`: `spawnObstacle` and the spawn gate.
- `Collision`: `checkCollision` and the nested hit filter.
- `Targeting`: `shoot` and the targeting filter.
- `Agent`: the trail and the wrap.
- `Simulation`: the state, `Tick`, the invariant and the multi-frame
  properties.

Distances are never computed. `d < r` is stated as `r > 0 && dx² + dy² < r²`.
`Collision.HitIsDistanceBelow` and `Targeting.InRangeIsDistanceBelow` prove
this agrees with the sketch's test for the true distance `d`.

## Behaviour worth noting

Line numbers refer to `Canvas/SpaceshipCanvas.jsx`.

- Hit pass. The inner filter (lines 115-122) drops every bullet that hits
  the obstacle and calls `explode` once for each of them. One obstacle can
  therefore take several bullets in a frame and produce several bursts.
  `Collision.PassMatchesReference` states the consequence: an obstacle is
  removed iff some bullet still present when it is examined hits it.
- Obstacle size. `random(10, 15)` never returns 15, so sizes lie in
  [10,15).
- Bullet pruning. Line 141 keeps only bullets strictly inside the screen,
  so a bullet exactly on an edge is removed. Pruning happens before
  targeting, so a bullet fired in a frame is not pruned until the next
  frame (`Simulation.TickFiring`).
- Particle lifespans. The update loop (lines 126-130) runs in the same
  frame as `explode`, so every retained particle has lifespan in (0,245];
  none still has 255 (`Particles.Fade`).
- Fire-rate gate. The gate is strict (`> 30`), so shots are at least 31
  frames apart. p5 numbers the first `draw` call as frame 1 and `lastShot`
  starts at 0. Over 200 frames that allows at most 6 shots
  (`Simulation.FireRate`).
- Spawn frames. With frames numbered from 1, the first obstacle appears at
  frame 100.
- Screen size. The screen size comes from the window; the model takes
  natural-number sizes and handles 0.

## Model

| member | source | states |
|---|---|---|
| P5.Random | Canvas/SpaceshipCanvas.jsx:72-73 | a draw of `random(lo, hi)` lies in [lo, hi), and is exactly `lo` when the bounds coincide; reversed bounds give [hi, lo) |
| Particles.AgeEffect | Canvas/SpaceshipCanvas.jsx:17-20 | after k updates a particle has lost 10·k lifespan, kept its velocity and moved k times its velocity |
| Particles.FreshLifetime | Canvas/SpaceshipCanvas.jsx:12-28 | a particle created with lifespan 255 is not done after each of updates 1 to 25 and is done after the 26th |
| Particles.Burst | Canvas/SpaceshipCanvas.jsx:36-40 | `explode(pos)` creates exactly 10 particles, each at `pos` with lifespan 255 |
| Particles.Fresh | Canvas/SpaceshipCanvas.jsx:12-16 | no contract; a new particle is a copy of the position with lifespan 255, as `Particles.Burst` and `Particles.FreshLifetime` state |
| Particles.Update | Canvas/SpaceshipCanvas.jsx:17-20 | no contract; its effect over k updates is stated by `Particles.AgeEffect` |
| Particles.IsDone | Canvas/SpaceshipCanvas.jsx:26-28 | no contract; when it first holds is stated by `Particles.FreshLifetime` |
| Particles.UpdateAll | Canvas/SpaceshipCanvas.jsx:126-127 | no property of its own beyond the element-wise map; the particle phase is stated by `Particles.Fade` |
| Particles.Fade | Canvas/SpaceshipCanvas.jsx:126-130 | the particle phase keeps, in order, every copy of each updated particle with positive lifespan and no other: the multiset of survivors is the updated multiset restricted to positive lifespans; each survivor is the update of an input; inputs within (0,255] give survivors within (0,245] |
| Spawner.Edge | Canvas/SpaceshipCanvas.jsx:50 | `floor(random(4))` is one of the four edges 0 to 3 |
| Spawner.SpawnObstacle | Canvas/SpaceshipCanvas.jsx:49-76 | a spawned obstacle has size in [10,15) and 6 to 10 vertices; for each edge, one coordinate is 10 beyond that edge and the other lies in [0, extent) |
| Spawner.SpawnedOffscreen | Canvas/SpaceshipCanvas.jsx:52-69 | every spawned obstacle starts outside the closed screen, at x = -10, x = width + 10, y = -10 or y = height + 10 |
| Spawner.MaybeSpawn | Canvas/SpaceshipCanvas.jsx:93-95 | exactly one obstacle is appended iff the frame is a multiple of 100; the existing obstacles are unchanged |
| Collision.Hit | Canvas/SpaceshipCanvas.jsx:45-48 | no contract; its meaning as a distance test is stated by `Collision.HitIsDistanceBelow` |
| Collision.HitIsDistanceBelow | Canvas/SpaceshipCanvas.jsx:45-48 | the squared-distance hit test holds iff the true distance is strictly below size/2 + 2.5 |
| Collision.Sweep | Canvas/SpaceshipCanvas.jsx:115-122 | the inner filter keeps exactly the bullets that miss the obstacle, in order, and sets `isHit` iff it dropped one |
| Collision.Explosions | Canvas/SpaceshipCanvas.jsx:115-122 | the inner filter's `explode` calls create 10 particles per bullet dropped |
| Collision.ExplosionsAt | Canvas/SpaceshipCanvas.jsx:116-117 | every particle they create sits at the obstacle with lifespan 255 |
| Collision.SweepHit | Canvas/SpaceshipCanvas.jsx:114-123 | an obstacle is dropped iff some bullet it meets hits it |
| Collision.PassBullets | Canvas/SpaceshipCanvas.jsx:113-124 | the bullets left after the hit pass are exactly those no obstacle hits, in order |
| Collision.PassKeepsOrder | Canvas/SpaceshipCanvas.jsx:113-124 | surviving obstacles keep their relative order, and no more obstacles than bullets are removed |
| Collision.DebrisCount | Canvas/SpaceshipCanvas.jsx:113-124 | the hit pass creates exactly 10 particles per bullet it removes |
| Collision.Pass | Canvas/SpaceshipCanvas.jsx:113-124 | the hit pass never adds bullets; which obstacles and bullets survive is stated by `Collision.PassBullets`, `Collision.PassKeepsOrder` and `Collision.PassMatchesReference` |
| Collision.Debris | Canvas/SpaceshipCanvas.jsx:113-124 | no contract; its particles are counted by `Collision.DebrisCount` and placed by `Collision.DebrisAt` |
| Collision.Collide | Canvas/SpaceshipCanvas.jsx:113-124 | no contract; the whole hit pass is stated by `Collision.CollideSummary` |
| Collision.DebrisAt | Canvas/SpaceshipCanvas.jsx:113-124 | every particle the hit pass creates has lifespan 255 and sits at the position of an obstacle the pass destroys, in the reference reading of `Collision.Destroyed` (the obstacle `explode` was called for) |
| Collision.PassMatchesReference | Canvas/SpaceshipCanvas.jsx:113-124 | the nested filter removes an obstacle iff some bullet hits it that no earlier obstacle hits; the others stay in order |
| Collision.CollideSummary | Canvas/SpaceshipCanvas.jsx:113-124 | the whole hit pass: bullets kept, obstacles kept against the reference reading, order kept, obstacles removed ≤ bullets removed, 10 particles per removed bullet, each at an obstacle the pass destroys |
| Targeting.InRange | Canvas/SpaceshipCanvas.jsx:143-144 | no contract; its meaning as a distance test is stated by `Targeting.InRangeIsDistanceBelow` |
| Targeting.Ready | Canvas/SpaceshipCanvas.jsx:145 | no contract; the gate it models is stated by `Simulation.TickLastShot` and bounded over runs by `Simulation.FireRate` |
| Targeting.InRangeIsDistanceBelow | Canvas/SpaceshipCanvas.jsx:143-144 | the squared-distance range test holds iff the true distance is below 500 |
| Targeting.FirstInRange | Canvas/SpaceshipCanvas.jsx:142-150 | the index found is the first obstacle in range; no obstacle before it is in range, and it is the number of obstacles when none is |
| Targeting.Shot | Canvas/SpaceshipCanvas.jsx:41-44 | no contract; the bullet it creates and the `lastShot` update are stated by `Targeting.Target` |
| Targeting.Target | Canvas/SpaceshipCanvas.jsx:142-150 | the targeting pass keeps every obstacle; it appends exactly one bullet, at the ship and aimed at the first obstacle in range, and sets `lastShot` to the frame, iff an obstacle is in range and more than 30 frames passed since the last shot; otherwise bullets and `lastShot` are unchanged |
| Agent.WrapAxis | Canvas/SpaceshipCanvas.jsx:178-179 | a wrapped coordinate lies in [0, extent]; one already there is unchanged; past the far edge it becomes exactly 0, below 0 exactly the extent |
| Agent.Wrap | Canvas/SpaceshipCanvas.jsx:178-181 | the wrapped position lies on the closed screen, and a position already on it is unchanged |
| Agent.WrapIdempotent | Canvas/SpaceshipCanvas.jsx:178-181 | wrapping a wrapped position changes nothing |
| Agent.PushTrail | Canvas/SpaceshipCanvas.jsx:156-159 | the pushed sample is last; the trail is a suffix of the old trail plus the sample; a trail within 10 grows by one up to 10 |
| Simulation.Init | Canvas/SpaceshipCanvas.jsx:81-82 | the start state has the ship at rest at the screen centre and satisfies the invariant |
| Simulation.Approach | Canvas/SpaceshipCanvas.jsx:96-100 | each obstacle moves by 2·normalize(ship − obstacle) and keeps its size and vertex count |
| Simulation.Flight | Canvas/SpaceshipCanvas.jsx:131-133 | no contract; one step of a bullet, whose effect on the pool is stated by `Simulation.TickBullets` |
| Simulation.Fly | Canvas/SpaceshipCanvas.jsx:131-133 | no property of its own beyond the element-wise map; bullet flight is stated by `Simulation.TickBullets` |
| Simulation.TickBullets | Canvas/SpaceshipCanvas.jsx:113-141 | apart from one bullet fired in the frame, a bullet is present after the frame iff it is some old bullet that no moved obstacle hits, advanced once by its own unchanged velocity, and lies strictly inside the screen: flight is linear and never homes |
| Simulation.Prune | Canvas/SpaceshipCanvas.jsx:141 | pruning keeps, in order, every copy of each bullet strictly inside the open screen rectangle and no other bullet (multisets, not just membership) |
| Simulation.Hits | Canvas/SpaceshipCanvas.jsx:93-124 | no contract; composes the spawn gate, the approach and the hit pass, stated by `Spawner.MaybeSpawn`, `Simulation.Approach` and `Collision.CollideSummary` |
| Simulation.Armory | Canvas/SpaceshipCanvas.jsx:131-150 | no contract; composes bullet flight, pruning and targeting, stated by `Simulation.TickBullets`, `Simulation.ArmoryOnBoard` and `Targeting.Target` |
| Simulation.HitsLively | Canvas/SpaceshipCanvas.jsx:126-130 | after the particle phase every particle has lifespan in (0,255] |
| Simulation.ArmoryOnBoard | Canvas/SpaceshipCanvas.jsx:141-150 | after targeting every bullet is on the closed screen |
| Simulation.Tick | Canvas/SpaceshipCanvas.jsx:86-181 | no contract; its per-frame properties are stated by `Simulation.TickPreservesInv`, `TickBullets`, `TickTrail`, `TickFiring`, `TickLastShot` and `TickDamps`, its multi-frame ones by `RunTrail`, `FireRate`, `RunSlow` and `RunNoise` |
| Simulation.Force | Canvas/SpaceshipCanvas.jsx:151-153 | no contract; the steering force, bounded by assumption in `Simulation.TickDamps` |
| Simulation.Moved | Canvas/SpaceshipCanvas.jsx:154-155 | no contract; the pre-wrap position, stated as the newest trail sample by `Simulation.TickTrail` |
| Simulation.TickPreservesInv | Canvas/SpaceshipCanvas.jsx:86-181 | a frame preserves the invariant: ship on the closed screen, trail within 10, obstacles of spawnable shape, bullets on the closed screen, particles within (0,255] |
| Simulation.TickTrail | Canvas/SpaceshipCanvas.jsx:155-159 | the newest trail sample is the ship's position before the wrap, and wraps to the new position |
| Simulation.TickFiring | Canvas/SpaceshipCanvas.jsx:141-150 | when a frame fires, `lastShot` becomes the frame, the gate was open and the new bullet is last and at the ship; every other bullet is strictly on screen |
| Simulation.TickLastShot | Canvas/SpaceshipCanvas.jsx:142-147 | a frame keeps `lastShot`, or sets it to the frame number when more than 30 frames have passed |
| Simulation.RunKeepsRecent | Canvas/SpaceshipCanvas.jsx:156-159 | over any run, the trail is the newest min(length, 10) entries of the old trail followed by the positions pushed (FIFO eviction) |
| Simulation.RunTrail | Canvas/SpaceshipCanvas.jsx:156-159 | over n frames the trail holds the newest min(\|trail\| + n, 10) samples: the old ones followed by the pre-wrap ship positions of the frames, oldest first |
| Simulation.GatedChanges | Canvas/SpaceshipCanvas.jsx:145 | a `lastShot` history in which every change passes the gate changes at most ceil(k/31) times over k frames, fewer when the last shot is recent |
| Simulation.FireRate | Canvas/SpaceshipCanvas.jsx:142-147 | n frames of the simulation fire at most (n + min(30, frame − lastShot − 1)) / 31 shots |
| Simulation.InitFireRate | Canvas/SpaceshipCanvas.jsx:142-147 | from the start state (`lastShot` 0) and frame 1, 200 frames fire at most 6 shots |
| Simulation.InitTrail | Canvas/SpaceshipCanvas.jsx:156-159 | from the start state and frame 1, after 15 frames the trail is exactly the pre-wrap ship positions of frames 6 to 15, oldest first |
| Simulation.TickMotion | Canvas/SpaceshipCanvas.jsx:151-177 | a frame sets the velocity to 0.95·(old velocity + the steering force read before the noise step) and advances the noise offset by exactly 0.01 |
| Simulation.TickDamps | Canvas/SpaceshipCanvas.jsx:151-177 | when every steering force has components of size at most 0.2, a frame leaves each velocity component at most 0.95·(old size + 0.2), so components within 3.8 stay within 3.8 |
| Simulation.RunSlow | Canvas/SpaceshipCanvas.jsx:151-177 | over any number of frames with such forces, a ship whose velocity components start within 3.8 (at rest, for instance) keeps them within 3.8 |
| Simulation.RunNoise | Canvas/SpaceshipCanvas.jsx:176 | after n frames the noise offset has advanced by exactly 0.01·n |

## Left out

- React plumbing: the constructor, ref, `componentDidMount`,
  `componentWillUnmount` and `render` (lines 4-8, 184-197). This is UI
  lifecycle with no effect on the simulation.
- All drawing (lines 87-89, 101-110, 21-25, 128, 132, 134-137, 160-175). It reads
  the state and never changes it.
- Canvas creation and window sizing in `setup` (line 80). The screen size
  is a parameter.
- p5's library numerics: `random`, `random2D`, Perlin `noise`,
  `normalize`, and `fromAngle`/`setMag`/`heading`. The spawn draws of
  `random` enter as values in [0,1) (`P5.Draws`). The others are
  uninterpreted functions (`P5.Numerics`). No trigonometry or square root
  is modelled.
- Particles.Fresh: a particle's velocity `random2D().mult(random(1, 2))`
  (line 14) enters as the arbitrary vector `Draws.spark(k)`; neither its
  random direction nor its speed in [1,2) is modelled.
- Floating-point rounding. Coordinates are exact reals.
- Simulation.Approach: the step 2·normalize(ship − obstacle) is not shown
  to have length 2, because `normalize` is uninterpreted.
- Targeting.Target: the bullet's velocity is `aim` applied to the
  direction. It is not shown to have speed 5, because `fromAngle` and
  `setMag` are uninterpreted.
- Simulation.Tick: the velocity update (lines 151-155, 177) is stated
  exactly in terms of the uninterpreted `Force` by `Simulation.TickMotion`,
  and numerically only as the bound of `Simulation.TickDamps`, because the
  steering force comes from the uninterpreted `noise` and `fromAngle`; the
  noise step is stated exactly by `Simulation.TickMotion` and
  `Simulation.RunNoise`.
- Simulation.TickDamps: the bound 0.2 on each force component is an
  assumption about the library (`setMag(0.2)` gives magnitude 0.2), not
  derived, because `steer` is uninterpreted.
- Simulation.FireRate: proves only the upper bound on shots. Whether an
  obstacle stays in range depends on the noise-driven flight, so no
  lower bound is stated.
- Spawner.SpawnObstacle: the along-edge coordinate is shown to lie in the
  edge's range, not to be uniformly distributed.
- Collision: the sketch computes bullets, obstacles and particles in one
  traversal. The model computes them in two recursions over the same
  traversal: `Pass` for obstacles and bullets, `Debris` for particles.
  Both visit obstacles and bullets in the same order and draw particle
  velocities in creation order.

=== FILE: agent.dfy ===
/** The ship: noise-driven steering, damping, the fading trail and the
    torus wrap at the screen edges. */
module Agent {
  import opened Vectors
  import opened Entities

  /** Velocity kept per frame. */
  const DAMPING: real := 0.95
  /** Advance of the noise offset per frame. */
  const NOISE_STEP: real := 0.01
  /** Number of trail samples kept. */
  const TRAIL_LENGTH: nat := 10

  /** One coordinate of the wrap: past the far edge it jumps to 0, then,
      if below 0, to the far edge. */
  function WrapAxis(v: real, extent: real): (r: real)
    requires extent >= 0.0
    ensures 0.0 <= r <= extent
    ensures 0.0 <= v <= extent ==> r == v
    ensures v > extent ==> r == 0.0
    ensures v < 0.0 ==> r == extent
  {
    var v1 := if v > extent then 0.0 else v;
    if v1 < 0.0 then extent else v1
  }

  /** The wrap applied per axis: the result lies on the closed screen
      rectangle and a position already on it is unchanged. */
  function Wrap(p: Vec, screen: Screen): (r: Vec)
    ensures InClosed(r, screen.W(), screen.H())
    ensures InClosed(p, screen.W(), screen.H()) ==> r == p
  {
    Vec(WrapAxis(p.x, screen.W()), WrapAxis(p.y, screen.H()))
  }

  /** Wrapping twice is wrapping once. */
  lemma WrapIdempotent(p: Vec, screen: Screen)
    ensures Wrap(Wrap(p, screen), screen) == Wrap(p, screen)
  {
  }

  /** `trail.push(pos)` followed by one `trail.shift()` when the trail is
      longer than `TRAIL_LENGTH`: the newest sample is last, the result is
      a suffix of the old trail extended by `p` (oldest samples go first),
      and a trail within the bound grows by one up to the bound. */
  function PushTrail(trail: seq<Vec>, p: Vec): (r: seq<Vec>)
    ensures 0 < |r| <= |trail| + 1 && r[|r| - 1] == p
    ensures r == (trail + [p])[|trail| + 1 - |r|..]
    ensures |trail| <= TRAIL_LENGTH ==>
              |r| == if |trail| < TRAIL_LENGTH then |trail| + 1 else TRAIL_LENGTH
  {
    var pushed := trail + [p];
    if |pushed| > TRAIL_LENGTH then pushed[1..] else pushed
  }
}

=== FILE: collision.dfy ===
/** Bullet/obstacle hit detection and its consequences: the nested
    filter of the sketch, in which every obstacle, in order, removes every
    bullet still present that hits it. */
module Collision {
  import opened Vectors
  import opened Seqs
  import opened Entities
  import opened Particles

  /** Bullets are treated as discs of this radius. */
  const BULLET_RADIUS: real := 2.5

  /** `checkCollision`: the bullet is strictly closer to the obstacle's
      centre than half the obstacle's size plus the bullet radius. */
  predicate Hit(b: Bullet, o: Obstacle) {
    Within(b.pos, o.pos, o.size / 2.0 + BULLET_RADIUS)
  }

  /** `Hit` is exactly the sketch's test `dist < size / 2 + 2.5` for the
      true Euclidean distance `d`; in particular a bullet at distance
      exactly `size / 2 + 2.5` does not hit. */
  lemma HitIsDistanceBelow(b: Bullet, o: Obstacle, d: real)
    requires d >= 0.0 && d * d == DistSq(b.pos, o.pos)
    ensures Hit(b, o) <==> d < o.size / 2.0 + BULLET_RADIUS
  {
    WithinIsDistanceBelow(b.pos, o.pos, o.size / 2.0 + BULLET_RADIUS, d);
  }

  function Misses(o: Obstacle): Bullet -> bool {
    b => !Hit(b, o)
  }

  /** No obstacle of `os` hits `b`. */
  predicate Spared(b: Bullet, os: seq<Obstacle>) {
    forall j :: 0 <= j < |os| ==> !Hit(b, os[j])
  }

  function SparedBy(os: seq<Obstacle>): Bullet -> bool {
    b => Spared(b, os)
  }

  /** Result of the inner filter for one obstacle: the bullets kept and
      the sketch's `isHit` flag. */
  datatype Swept = Swept(bullets: seq<Bullet>, hit: bool)

  /** The inner `bullets.filter` for obstacle `o`: exactly the bullets
      that miss `o` stay, in order, and `isHit` ends up set iff one was
      dropped. */
  function Sweep(o: Obstacle, bs: seq<Bullet>): (r: Swept)
    ensures r.bullets == Filter(bs, Misses(o))
    ensures r.hit <==> |r.bullets| < |bs|
    decreases |bs|
  {
    if |bs| == 0 then Swept([], false)
    else if Hit(bs[0], o) then Swept(Sweep(o, bs[1..]).bullets, true)
    else
      var rest := Sweep(o, bs[1..]);
      Swept([bs[0]] + rest.bullets, rest.hit)
  }

  /** The `explode` calls of that inner filter: one burst at `o`'s
      position per bullet that hits `o`, in bullet order; `next` counts
      the particles created earlier in the frame. */
  function Explosions(o: Obstacle, bs: seq<Bullet>, spark: nat -> Vec, next: nat): (r: seq<Particle>)
    ensures |r| == BURST * (|bs| - |Filter(bs, Misses(o))|)
    decreases |bs|
  {
    if |bs| == 0 then []
    else if Hit(bs[0], o) then Burst(o.pos, spark, next) + Explosions(o, bs[1..], spark, next + BURST)
    else Explosions(o, bs[1..], spark, next)
  }

  /** Every particle of an obstacle's explosions is fresh and sits at the
      obstacle. */
  lemma {:induction false} ExplosionsAt(o: Obstacle, bs: seq<Bullet>, spark: nat -> Vec, next: nat)
    ensures forall p :: p in Explosions(o, bs, spark, next) ==> p.pos == o.pos && p.lifespan == LIFESPAN
    decreases |bs|
  {
    if |bs| > 0 {
      if Hit(bs[0], o) {
        ExplosionsAt(o, bs[1..], spark, next + BURST);
      } else {
        ExplosionsAt(o, bs[1..], spark, next);
      }
    }
  }

  /** `o` is dropped (the flag is set) iff some bullet hits it. */
  lemma SweepHit(o: Obstacle, bs: seq<Bullet>)
    ensures Sweep(o, bs).hit <==> exists b :: b in bs && Hit(b, o)
  {
    FilterShrinks(bs, Misses(o));
  }

  lemma SparedCons(b: Bullet, o: Obstacle, os: seq<Obstacle>)
    ensures Spared(b, [o] + os) <==> !Hit(b, o) && Spared(b, os)
  {
    assert ([o] + os)[0] == o;
    if !Hit(b, o) && Spared(b, os) {
      forall j | 0 <= j < |[o] + os| ensures !Hit(b, ([o] + os)[j]) {
        if j > 0 {
          assert ([o] + os)[j] == os[j - 1];
        }
      }
    }
    if Spared(b, [o] + os) {
      forall j | 0 <= j < |os| ensures !Hit(b, os[j]) {
        assert os[j] == ([o] + os)[j + 1];
      }
    }
  }

  /** Passing `o` first and then `os` spares the same bullets as passing
      `[o] + os`. */
  lemma SparedStep(bs: seq<Bullet>, o: Obstacle, os: seq<Obstacle>)
    ensures Filter(Filter(bs, Misses(o)), SparedBy(os)) == Filter(bs, SparedBy([o] + os))
  {
    forall b | b in bs
      ensures SparedBy([o] + os)(b) == (Misses(o)(b) && SparedBy(os)(b))
    {
      SparedCons(b, o, os);
    }
    FilterTwice(bs, Misses(o), SparedBy(os), SparedBy([o] + os));
  }

  /** The pools after the hit pass: obstacles and bullets kept, and the
      particles appended. */
  datatype Outcome = Outcome(obstacles: seq<Obstacle>, bullets: seq<Bullet>, sparks: seq<Particle>)

  /** Obstacles and bullets kept by the outer `obstacles.filter`. */
  datatype Survivors = Survivors(obstacles: seq<Obstacle>, bullets: seq<Bullet>)

  /** The outer `obstacles.filter` with its nested bullet filter, as far
      as the pools of obstacles and bullets go: each obstacle in turn
      sweeps the bullets still present and is dropped iff it hit at least
      one of them. */
  function Pass(os: seq<Obstacle>, bs: seq<Bullet>): (r: Survivors)
    ensures |r.bullets| <= |bs|
    decreases |os|
  {
    if |os| == 0 then Survivors([], bs)
    else
      var s := Sweep(os[0], bs);
      var rest := Pass(os[1..], s.bullets);
      Survivors(if s.hit then rest.obstacles else [os[0]] + rest.obstacles, rest.bullets)
  }

  /** The particles the same traversal creates: the explosions of each
      obstacle in turn against the bullets still present. */
  function Debris(os: seq<Obstacle>, bs: seq<Bullet>, spark: nat -> Vec, next: nat): seq<Particle>
    decreases |os|
  {
    if |os| == 0 then []
    else
      var e := Explosions(os[0], bs, spark, next);
      e + Debris(os[1..], Sweep(os[0], bs).bullets, spark, next + |e|)
  }

  /** The whole hit pass of one frame. */
  function Collide(os: seq<Obstacle>, bs: seq<Bullet>, spark: nat -> Vec, next: nat): Outcome {
    var r := Pass(os, bs);
    Outcome(r.obstacles, r.bullets, Debris(os, bs, spark, next))
  }

  /** The bullets left by the hit pass are exactly those no obstacle
      hits, in their original order. */
  lemma {:induction false} PassBullets(os: seq<Obstacle>, bs: seq<Bullet>)
    ensures Pass(os, bs).bullets == Filter(bs, SparedBy(os))
    decreases |os|
  {
    if |os| == 0 {
      FilterAll(bs, SparedBy(os));
    } else {
      PassBullets(os[1..], Sweep(os[0], bs).bullets);
      SparedStep(bs, os[0], os[1..]);
      assert [os[0]] + os[1..] == os;
    }
  }

  /** Surviving obstacles keep their order, and no more obstacles than
      bullets disappear: each one removed consumed at least one bullet. */
  lemma {:induction false} PassKeepsOrder(os: seq<Obstacle>, bs: seq<Bullet>)
    ensures var r := Pass(os, bs);
            Subseq(r.obstacles, os) && |os| - |r.obstacles| <= |bs| - |r.bullets|
    decreases |os|
  {
    if |os| > 0 {
      var s := Sweep(os[0], bs);
      var rest := Pass(os[1..], s.bullets);
      PassKeepsOrder(os[1..], s.bullets);
      PassStep(os, bs, s, rest.obstacles);
      PassStepBullets(os, bs);
      SubseqShorter(rest.obstacles, os[1..]);
      KeepSubseq(os, rest.obstacles, s.hit);
    }
  }

  /** Keeping or dropping the head of an order-preserving selection
      leaves it order-preserving. */
  lemma KeepSubseq<T>(xs: seq<T>, rest: seq<T>, drop: bool)
    requires |xs| > 0 && Subseq(rest, xs[1..])
    ensures Subseq((if drop then [] else [xs[0]]) + rest, xs)
  {
    assert [xs[0]] + xs[1..] == xs;
    if drop {
      assert [] + rest == rest;
      SubseqSkip(xs[0], rest, xs[1..]);
    } else {
      SubseqCons(xs[0], rest, xs[1..]);
    }
  }

  /** Ten particles appear per bullet the hit pass removes. */
  lemma {:induction false} DebrisCount(os: seq<Obstacle>, bs: seq<Bullet>, spark: nat -> Vec, next: nat)
    ensures |Debris(os, bs, spark, next)| == BURST * (|bs| - |Pass(os, bs).bullets|)
    decreases |os|
  {
    if |os| > 0 {
      var e := Explosions(os[0], bs, spark, next);
      var kept := Sweep(os[0], bs).bullets;
      DebrisCount(os[1..], kept, spark, next + |e|);
      DebrisStep(os, bs, spark, next);
      PassStepBullets(os, bs);
      CountStep(|Debris(os, bs, spark, next)|, |e|, |Debris(os[1..], kept, spark, next + |e|)|,
                |bs|, |kept|, |Pass(os[1..], kept).bullets|, |Pass(os, bs).bullets|);
    }
  }

  lemma DebrisStep(os: seq<Obstacle>, bs: seq<Bullet>, spark: nat -> Vec, next: nat)
    requires |os| > 0
    ensures var e := Explosions(os[0], bs, spark, next);
            Debris(os, bs, spark, next) == e + Debris(os[1..], Sweep(os[0], bs).bullets, spark, next + |e|)
  {
  }

  lemma PassStepBullets(os: seq<Obstacle>, bs: seq<Bullet>)
    requires |os| > 0
    ensures Pass(os, bs).bullets == Pass(os[1..], Sweep(os[0], bs).bullets).bullets
  {
  }

  /** The arithmetic of one step of `DebrisCount`. */
  lemma CountStep(total: int, here: int, later: int, all: int, kept: int, left: int, final: int)
    requires total == here + later && final == left
    requires here == BURST * (all - kept) && later == BURST * (kept - left)
    ensures total == BURST * (all - final)
  {
  }

  /** Reference reading of the hit pass, without its sequential state:
      obstacle `i` is destroyed iff some bullet hits it that no earlier
      obstacle hits (such a bullet is still present when `i` is
      examined). */
  predicate Destroyed(os: seq<Obstacle>, bs: seq<Bullet>, i: nat)
    requires i < |os|
  {
    exists b :: b in bs && Hit(b, os[i]) && Spared(b, os[..i])
  }

  /** The obstacles from index `i` on that are not destroyed, in order. */
  function RemainingFrom(os: seq<Obstacle>, bs: seq<Bullet>, i: nat): seq<Obstacle>
    requires i <= |os|
    decreases |os| - i
  {
    if i == |os| then []
    else (if Destroyed(os, bs, i) then [] else [os[i]]) + RemainingFrom(os, bs, i + 1)
  }

  lemma SparedSnoc(b: Bullet, os: seq<Obstacle>, k: nat)
    requires k < |os|
    ensures Spared(b, os[..k + 1]) <==> Spared(b, os[..k]) && !Hit(b, os[k])
  {
    var pre := os[..k + 1];
    assert pre[k] == os[k];
    if Spared(b, os[..k]) && !Hit(b, os[k]) {
      forall j | 0 <= j < |pre| ensures !Hit(b, pre[j]) {
        if j < k {
          assert pre[j] == os[..k][j];
        }
      }
    }
    if Spared(b, os[..k + 1]) {
      forall j | 0 <= j < k ensures !Hit(b, os[..k][j]) {
        assert os[..k][j] == os[..k + 1][j];
      }
    }
  }

  /** Sweeping the bullets that survived `os[..k]` with `os[k]` leaves
      those that survive `os[..k + 1]`. */
  lemma SparedPrefixStep(bs: seq<Bullet>, os: seq<Obstacle>, k: nat)
    requires k < |os|
    ensures Filter(Filter(bs, SparedBy(os[..k])), Misses(os[k])) == Filter(bs, SparedBy(os[..k + 1]))
  {
    forall b | b in bs
      ensures SparedBy(os[..k + 1])(b) == (SparedBy(os[..k])(b) && Misses(os[k])(b))
    {
      SparedSnoc(b, os, k);
    }
    FilterTwice(bs, SparedBy(os[..k]), Misses(os[k]), SparedBy(os[..k + 1]));
  }

  /** One step of the outer filter. */
  lemma PassStep(os: seq<Obstacle>, bs: seq<Bullet>, s: Swept, rest: seq<Obstacle>)
    requires |os| > 0 && s == Sweep(os[0], bs)
    requires rest == Pass(os[1..], s.bullets).obstacles
    ensures Pass(os, bs).obstacles == (if s.hit then [] else [os[0]]) + rest
  {
  }

  /** Obstacle `k` sweeps the bullets spared by `os[..k]`, and its flag is
      set exactly when the reference reading destroys it. */
  lemma SweepIsDestroyed(os: seq<Obstacle>, bs: seq<Bullet>, k: nat)
    requires k < |os|
    ensures Sweep(os[k], Filter(bs, SparedBy(os[..k]))).hit <==> Destroyed(os, bs, k)
  {
    SweepHit(os[k], Filter(bs, SparedBy(os[..k])));
    FilterMembers(bs, SparedBy(os[..k]));
  }

  /** One step of the outer filter, read against the reference: obstacle
      `k` meets the bullets spared by `os[..k]`. */
  lemma PassFromStep(os: seq<Obstacle>, bs: seq<Bullet>, k: nat, s: Swept, rest: seq<Obstacle>)
    requires k < |os|
    requires s == Sweep(os[k], Filter(bs, SparedBy(os[..k])))
    requires rest == Pass(os[k + 1..], s.bullets).obstacles
    ensures Pass(os[k..], Filter(bs, SparedBy(os[..k]))).obstacles
              == (if Destroyed(os, bs, k) then [] else [os[k]]) + rest
  {
    var suffix := os[k..];
    assert suffix[0] == os[k] && suffix[1..] == os[k + 1..];
    PassStep(suffix, Filter(bs, SparedBy(os[..k])), s, rest);
    SweepIsDestroyed(os, bs, k);
  }

  lemma {:induction false} PassFrom(os: seq<Obstacle>, bs: seq<Bullet>, k: nat)
    requires k <= |os|
    ensures Pass(os[k..], Filter(bs, SparedBy(os[..k]))).obstacles == RemainingFrom(os, bs, k)
    decreases |os| - k
  {
    if k < |os| {
      var s := Sweep(os[k], Filter(bs, SparedBy(os[..k])));
      SparedPrefixStep(bs, os, k);
      PassFrom(os, bs, k + 1);
      PassFromStep(os, bs, k, s, Pass(os[k + 1..], s.bullets).obstacles);
    }
  }

  /** The sequential nested filter agrees with the reference reading:
      an obstacle is removed iff some bullet still present when it is
      examined hits it, and the others keep their order. */
  lemma PassMatchesReference(os: seq<Obstacle>, bs: seq<Bullet>)
    ensures Pass(os, bs).obstacles == RemainingFrom(os, bs, 0)
  {
    assert os[0..] == os;
    FilterAll(bs, SparedBy(os[..0]));
    PassFrom(os, bs, 0);
  }

  /** `p` sits where an obstacle at index `k` or later was that the
      reference reading destroys. */
  predicate AtDestroyed(p: Particle, os: seq<Obstacle>, bs: seq<Bullet>, k: nat) {
    exists j :: k <= j < |os| && Destroyed(os, bs, j) && p.pos == os[j].pos
  }

  /** Every particle of `ps` is fresh and sits at a destroyed obstacle
      from index `k` on. */
  predicate AllAtDestroyed(ps: seq<Particle>, os: seq<Obstacle>, bs: seq<Bullet>, k: nat) {
    forall p :: p in ps ==> p.lifespan == LIFESPAN && AtDestroyed(p, os, bs, k)
  }

  /** An obstacle explodes only when its flag gets set. */
  lemma ExplosionsHit(o: Obstacle, bs: seq<Bullet>, spark: nat -> Vec, next: nat)
    ensures Explosions(o, bs, spark, next) != [] ==> Sweep(o, bs).hit
  {
  }

  /** A bullet the first obstacle spares and that hits the later
      obstacle `j` of the rest, sparing those before it, shows obstacle
      `j + 1` destroyed in the whole pass. */
  lemma DestroyedShift(os: seq<Obstacle>, bs: seq<Bullet>, j: nat)
    requires 0 < |os| && j < |os| - 1
    requires Destroyed(os[1..], Filter(bs, Misses(os[0])), j)
    ensures Destroyed(os, bs, j + 1)
  {
    var tail := os[1..];
    var b :| b in Filter(bs, Misses(os[0])) && Hit(b, tail[j]) && Spared(b, tail[..j]);
    FilterMembers(bs, Misses(os[0]));
    assert os[..j + 1] == [os[0]] + tail[..j];
    SparedCons(b, os[0], tail[..j]);
    assert tail[j] == os[j + 1];
  }

  /** `AllAtDestroyed` for the rest of the traversal carries over to the
      whole pass, one index further on. */
  lemma AllAtDestroyedShift(later: seq<Particle>, os: seq<Obstacle>, bs: seq<Bullet>)
    requires 0 < |os|
    requires AllAtDestroyed(later, os[1..], Filter(bs, Misses(os[0])), 0)
    ensures AllAtDestroyed(later, os, bs, 1)
  {
    forall p | p in later ensures AtDestroyed(p, os, bs, 1) {
      var j :| 0 <= j < |os[1..]| && Destroyed(os[1..], Filter(bs, Misses(os[0])), j) && p.pos == os[1..][j].pos;
      DestroyedShift(os, bs, j);
    }
  }

  /** The first obstacle is destroyed once it explodes. */
  lemma FirstDestroyed(os: seq<Obstacle>, bs: seq<Bullet>, spark: nat -> Vec, next: nat)
    requires 0 < |os|
    ensures Explosions(os[0], bs, spark, next) != [] ==> Destroyed(os, bs, 0)
  {
    ExplosionsHit(os[0], bs, spark, next);
    SweepHit(os[0], bs);
    if Sweep(os[0], bs).hit {
      var b :| b in bs && Hit(b, os[0]);
      assert Spared(b, os[..0]);
    }
  }

  lemma {:induction false} DebrisDestroyed(os: seq<Obstacle>, bs: seq<Bullet>, spark: nat -> Vec, next: nat)
    ensures AllAtDestroyed(Debris(os, bs, spark, next), os, bs, 0)
    decreases |os|
  {
    if |os| > 0 {
      var e := Explosions(os[0], bs, spark, next);
      DebrisDestroyed(os[1..], Sweep(os[0], bs).bullets, spark, next + |e|);
      DestroyedStep(os, bs, spark, next);
    }
  }

  /** One step of `DebrisDestroyed`: when the rest of the traversal
      places its particles at obstacles it destroys, the whole pass
      does too. */
  lemma DestroyedStep(os: seq<Obstacle>, bs: seq<Bullet>, spark: nat -> Vec, next: nat)
    requires |os| > 0
    requires var e := Explosions(os[0], bs, spark, next);
             var kept := Sweep(os[0], bs).bullets;
             AllAtDestroyed(Debris(os[1..], kept, spark, next + |e|), os[1..], kept, 0)
    ensures AllAtDestroyed(Debris(os, bs, spark, next), os, bs, 0)
  {
    var e := Explosions(os[0], bs, spark, next);
    var kept := Sweep(os[0], bs).bullets;
    var later := Debris(os[1..], kept, spark, next + |e|);
    DebrisStep(os, bs, spark, next);
    DestroyedJoinFirst(os, bs, e, later, spark, next);
  }

  lemma DestroyedJoinFirst(os: seq<Obstacle>, bs: seq<Bullet>, e: seq<Particle>, later: seq<Particle>,
                           spark: nat -> Vec, next: nat)
    requires |os| > 0 && e == Explosions(os[0], bs, spark, next)
    requires AllAtDestroyed(later, os[1..], Sweep(os[0], bs).bullets, 0)
    ensures AllAtDestroyed(e + later, os, bs, 0)
  {
    ExplosionsAt(os[0], bs, spark, next);
    FirstDestroyed(os, bs, spark, next);
    AllAtDestroyedShift(later, os, bs);
    AtDestroyedJoin(e, later, os, bs, 0);
  }

  /** The particles of obstacle `k`'s explosions followed by those of
      the later obstacles all sit at destroyed obstacles from `k` on. */
  lemma AtDestroyedJoin(e: seq<Particle>, later: seq<Particle>, os: seq<Obstacle>, bs: seq<Bullet>, k: nat)
    requires k < |os| && (e != [] ==> Destroyed(os, bs, k))
    requires forall p :: p in e ==> p.pos == os[k].pos && p.lifespan == LIFESPAN
    requires AllAtDestroyed(later, os, bs, k + 1)
    ensures AllAtDestroyed(e + later, os, bs, k)
  {
    forall p: Particle | p in e + later
      ensures p.lifespan == LIFESPAN && AtDestroyed(p, os, bs, k)
    {
      if p in e {
        assert p.pos == os[k].pos && Destroyed(os, bs, k);
      } else {
        var j :| k + 1 <= j < |os| && Destroyed(os, bs, j) && p.pos == os[j].pos;
      }
    }
  }

  /** Every particle the hit pass appends is fresh and sits where an
      obstacle the pass destroys was: the obstacle `explode` was called
      for. */
  lemma DebrisAt(os: seq<Obstacle>, bs: seq<Bullet>, spark: nat -> Vec, next: nat)
    ensures forall p :: p in Debris(os, bs, spark, next) ==>
              p.lifespan == LIFESPAN && exists j :: 0 <= j < |os| && Destroyed(os, bs, j) && p.pos == os[j].pos
  {
    DebrisDestroyed(os, bs, spark, next);
    assert AllAtDestroyed(Debris(os, bs, spark, next), os, bs, 0);
  }

  /** The whole hit pass, read against its references: the bullets left
      are those no obstacle hits; the obstacles left are those the
      reference reading does not destroy, in order; no more obstacles than
      bullets disappear; ten fresh particles appear per bullet removed,
      each at an obstacle the pass destroys. */
  lemma CollideSummary(os: seq<Obstacle>, bs: seq<Bullet>, spark: nat -> Vec, next: nat)
    ensures var r := Collide(os, bs, spark, next);
            && r.bullets == Filter(bs, SparedBy(os))
            && r.obstacles == RemainingFrom(os, bs, 0)
            && Subseq(r.obstacles, os)
            && |os| - |r.obstacles| <= |bs| - |r.bullets|
            && |r.sparks| == BURST * (|bs| - |r.bullets|)
            && forall p :: p in r.sparks ==>
                 p.lifespan == LIFESPAN && exists j :: 0 <= j < |os| && Destroyed(os, bs, j) && p.pos == os[j].pos
  {
    PassBullets(os, bs);
    PassMatchesReference(os, bs);
    PassKeepsOrder(os, bs);
    DebrisCount(os, bs, spark, next);
    DebrisAt(os, bs, spark, next);
  }
}

=== FILE: entities.dfy ===
/** The entity records of the simulation and the drawing surface size. */
module Entities {
  import opened Vectors

  /** Canvas size in pixels, as `p.width` and `p.height`. */
  datatype Screen = Screen(width: nat, height: nat) {
    function W(): real { width as real }
    function H(): real { height as real }
  }

  /** A drifting polygonal obstacle; `vertices` only matters for drawing. */
  datatype Obstacle = Obstacle(pos: Vec, size: real, vertices: int)

  /** A projectile fired by the ship; its velocity never changes. */
  datatype Bullet = Bullet(pos: Vec, vel: Vec)

  /** An explosion fragment that fades out over its lifespan. */
  datatype Particle = Particle(pos: Vec, vel: Vec, lifespan: int)
}

=== FILE: p5.dfy ===
/** What the sketch takes from the p5 library that the model cannot
    compute: random draws, Perlin noise and the trigonometric vector
    constructors. They enter the model as explicit values and functions,
    so the simulation itself stays a pure function of its inputs. */
module P5 {
  import opened Vectors

  /** One raw draw of p5's uniform generator: a real in [0,1). */
  type Unit = u: real | 0.0 <= u < 1.0 witness 0.0

  /** p5's `random(lo, hi)`: `u * (hi - lo) + lo`, with reversed bounds
      swapped first; for `hi >= 0`, `random(hi)` is `Random(u, 0.0, hi)`. */
  function Random(u: Unit, lo: real, hi: real): (r: real)
    ensures lo <= hi ==> lo <= r && (r < hi || r == lo)
    ensures hi < lo ==> hi <= r < lo
  {
    if lo <= hi then Scaled(u, hi - lo) + lo else Scaled(u, lo - hi) + hi
  }

  /** `u * span`: a draw stretched over [0, span). */
  function Scaled(u: Unit, span: real): (p: real)
    requires span >= 0.0
    ensures 0.0 <= p
    ensures span > 0.0 ==> p < span
    ensures span == 0.0 ==> p == 0.0
  {
    var rest := 1.0 - u;
    assert span > 0.0 ==> rest * span > 0.0;
    assert rest * span == span - u * span;
    u * span
  }

  /** The random values one frame consumes. The spawner's four draws are
      used only on spawning frames; `spark(k)` is the velocity
      (`random2D().mult(random(1, 2))`) of the k-th particle created in the
      frame. */
  datatype Draws = Draws(edge: Unit, along: Unit, size: Unit, vertices: Unit,
                         spark: nat -> Vec)

  /** Deterministic library numerics, left uninterpreted:
      - `normalize`: `p5.Vector.normalize`;
      - `aim`: the bullet velocity `fromAngle(d.heading()).setMag(5)` for a
        direction `d`;
      - `noise`: Perlin `noise` of the noise offset;
      - `steer`: the steering force `fromAngle(n * TWO_PI * 2).setMag(0.2)`
        for a noise sample `n`. */
  datatype Numerics = Numerics(normalize: Vec -> Vec, aim: Vec -> Vec,
                               noise: real -> real, steer: real -> Vec)
}

=== FILE: particles.dfy ===
/** Explosion particles: creation in bursts, per-frame update and the
    `isDone` test that retires them. */
module Particles {
  import opened Vectors
  import opened Seqs
  import opened Entities

  /** Lifespan of a fresh particle, lost at `FADE` per update. */
  const LIFESPAN: int := 255
  const FADE: int := 10
  /** Particles per explosion. */
  const BURST: nat := 10

  /** A new particle at `pos` (its own copy) moving with `vel`. */
  function Fresh(pos: Vec, vel: Vec): Particle {
    Particle(pos, vel, LIFESPAN)
  }

  /** `Particle.update`: move by the velocity and fade. */
  function Update(p: Particle): Particle {
    Particle(Add(p.pos, p.vel), p.vel, p.lifespan - FADE)
  }

  /** `Particle.isDone`. */
  predicate IsDone(p: Particle) {
    p.lifespan <= 0
  }

  /** `k` consecutive updates. */
  function Age(p: Particle, k: nat): Particle
    decreases k
  {
    if k == 0 then p else Update(Age(p, k - 1))
  }

  /** After `k` updates a particle has moved `k` times its (unchanging)
      velocity and lost `k * FADE` of its lifespan. */
  lemma {:induction false} AgeEffect(p: Particle, k: nat)
    ensures Age(p, k).lifespan == p.lifespan - FADE * k
    ensures Age(p, k).vel == p.vel
    ensures Age(p, k).pos == Add(p.pos, Scale(p.vel, k as real))
    decreases k
  {
    if k > 0 {
      AgeEffect(p, k - 1);
    }
  }

  /** A fresh particle is still alive after each of its first 25 updates
      and done after the 26th, so it is pruned on its 26th frame. */
  lemma FreshLifetime(pos: Vec, vel: Vec)
    ensures forall k: nat :: 1 <= k <= 25 ==> !IsDone(Age(Fresh(pos, vel), k))
    ensures IsDone(Age(Fresh(pos, vel), 26))
  {
    forall k: nat | 1 <= k <= 25 {
      AgeEffect(Fresh(pos, vel), k);
    }
    AgeEffect(Fresh(pos, vel), 26);
  }

  /** The particles `explode(pos)` appends to the pool: `BURST` fresh
      particles, all at `pos`, the i-th moving with `spark(next + i)`. */
  function Burst(pos: Vec, spark: nat -> Vec, next: nat): (r: seq<Particle>)
    ensures |r| == BURST
    ensures forall i :: 0 <= i < |r| ==> r[i].pos == pos && r[i].lifespan == LIFESPAN
  {
    var burst := seq(BURST, i requires 0 <= i < BURST => Fresh(pos, spark(next + i)));
    assert forall i :: 0 <= i < BURST ==> burst[i] == Fresh(pos, spark(next + i));
    burst
  }

  /** `particles.forEach(p => p.update())`. */
  function UpdateAll(ps: seq<Particle>): (r: seq<Particle>)
    ensures |r| == |ps|
    ensures forall i :: 0 <= i < |ps| ==> r[i] == Update(ps[i])
  {
    seq(|ps|, i requires 0 <= i < |ps| => Update(ps[i]))
  }

  function Alive(): Particle -> bool {
    p => !IsDone(p)
  }

  /** The particle phase of a frame: update every particle, then keep
      those not done. Survivors keep their order, each survivor is the
      update of an input particle, and lifespans stay positive and,
      when they started at most `LIFESPAN`, at most `LIFESPAN - FADE`.
      Equal particles (a burst creates ten at one spot) are all kept or
      all dropped: every copy of a live updated particle survives. */
  function Fade(ps: seq<Particle>): (r: seq<Particle>)
    ensures Subseq(r, UpdateAll(ps))
    ensures forall q :: multiset(r)[q] == if q.lifespan > 0 then multiset(UpdateAll(ps))[q] else 0
    ensures forall q :: q in r <==> q in UpdateAll(ps) && q.lifespan > 0
    ensures forall q :: q in r ==> exists p :: p in ps && q == Update(p)
    ensures (forall p :: p in ps ==> p.lifespan <= LIFESPAN) ==>
              forall q :: q in r ==> 0 < q.lifespan <= LIFESPAN - FADE
  {
    FilterIsSubseq(UpdateAll(ps), Alive());
    FilterMembers(UpdateAll(ps), Alive());
    FilterCount(UpdateAll(ps), Alive());
    Filter(UpdateAll(ps), Alive())
  }
}

=== FILE: seqs.dfy ===
/** Order-preserving filtering over sequences: the functional reading of
    JavaScript's `Array.prototype.filter`, and the subsequence relation
    that says a filter keeps relative order. */
module Seqs {

  /** The elements of `s` that satisfy `p`, in their original order. */
  function Filter<T(!new)>(s: seq<T>, p: T -> bool): (r: seq<T>)
    ensures |r| <= |s|
  {
    if |s| == 0 then []
    else (if p(s[0]) then [s[0]] else []) + Filter(s[1..], p)
  }

  /** An element is kept iff it occurs in `s` and satisfies `p`. */
  lemma {:induction false} FilterMembers<T(!new)>(s: seq<T>, p: T -> bool)
    ensures forall x :: x in Filter(s, p) <==> x in s && p(x)
  {
    if |s| > 0 {
      FilterMembers(s[1..], p);
      assert s == [s[0]] + s[1..];
    }
  }

  /** A filter keeps every copy of an element that satisfies `p` and no
      copy of one that does not: multiplicities, not just membership. */
  lemma {:induction false} FilterCount<T(!new)>(s: seq<T>, p: T -> bool)
    ensures forall x :: multiset(Filter(s, p))[x] == if p(x) then multiset(s)[x] else 0
  {
    if |s| > 0 {
      FilterCount(s[1..], p);
      assert s == [s[0]] + s[1..];
      assert multiset(s) == multiset([s[0]]) + multiset(s[1..]);
      var head := if p(s[0]) then [s[0]] else [];
      assert Filter(s, p) == head + Filter(s[1..], p);
      assert multiset(Filter(s, p)) == multiset(head) + multiset(Filter(s[1..], p));
    }
  }

  /** `a` is obtained from `b` by deleting elements: relative order kept. */
  predicate Subseq<T(==)>(a: seq<T>, b: seq<T>)
    decreases |b|
  {
    if |a| == 0 then true
    else if |b| == 0 then false
    else (a[0] == b[0] && Subseq(a[1..], b[1..])) || Subseq(a, b[1..])
  }

  lemma {:induction false} SubseqShorter<T>(a: seq<T>, b: seq<T>)
    requires Subseq(a, b)
    ensures |a| <= |b|
    ensures forall x :: x in a ==> x in b
    decreases |b|
  {
    if |a| > 0 {
      if a[0] == b[0] && Subseq(a[1..], b[1..]) {
        SubseqShorter(a[1..], b[1..]);
        assert a == [a[0]] + a[1..];
      } else {
        SubseqShorter(a, b[1..]);
      }
    }
  }

  /** Keeping the head of both sides preserves the relation. */
  lemma SubseqCons<T>(x: T, a: seq<T>, b: seq<T>)
    requires Subseq(a, b)
    ensures Subseq([x] + a, [x] + b)
  {
    assert ([x] + a)[1..] == a;
    assert ([x] + b)[1..] == b;
  }

  /** Dropping the head of the longer side only preserves the relation. */
  lemma SubseqSkip<T>(x: T, a: seq<T>, b: seq<T>)
    requires Subseq(a, b)
    ensures Subseq(a, [x] + b)
  {
    assert ([x] + b)[1..] == b;
  }

  lemma {:induction false} FilterIsSubseq<T(!new)>(s: seq<T>, p: T -> bool)
    ensures Subseq(Filter(s, p), s)
  {
    if |s| == 0 {
    } else {
      FilterIsSubseq(s[1..], p);
      assert s == [s[0]] + s[1..];
      if p(s[0]) {
        SubseqCons(s[0], Filter(s[1..], p), s[1..]);
      } else {
        assert Filter(s, p) == Filter(s[1..], p);
        SubseqSkip(s[0], Filter(s[1..], p), s[1..]);
      }
    }
  }

  /** Filters by pointwise-equal predicates agree. */
  lemma {:induction false} FilterExt<T(!new)>(s: seq<T>, p: T -> bool, q: T -> bool)
    requires forall x :: x in s ==> p(x) == q(x)
    ensures Filter(s, p) == Filter(s, q)
  {
    if |s| > 0 {
      FilterExt(s[1..], p, q);
    }
  }

  /** Two filters in a row are one filter by the conjunction. */
  lemma {:induction false} FilterTwice<T(!new)>(s: seq<T>, p: T -> bool, q: T -> bool, pq: T -> bool)
    requires forall x :: x in s ==> pq(x) == (p(x) && q(x))
    ensures Filter(Filter(s, p), q) == Filter(s, pq)
  {
    if |s| > 0 {
      FilterTwice(s[1..], p, q, pq);
      if p(s[0]) {
        var fs := Filter(s, p);
        assert fs == [s[0]] + Filter(s[1..], p);
        assert fs[0] == s[0] && fs[1..] == Filter(s[1..], p);
        assert Filter(fs, q) == (if q(s[0]) then [s[0]] else []) + Filter(fs[1..], q);
      } else {
        assert Filter(s, p) == Filter(s[1..], p);
      }
    }
  }

  /** A filter whose predicate holds everywhere keeps everything. */
  lemma {:induction false} FilterAll<T(!new)>(s: seq<T>, p: T -> bool)
    requires forall x :: x in s ==> p(x)
    ensures Filter(s, p) == s
  {
    if |s| > 0 {
      FilterAll(s[1..], p);
      assert s == [s[0]] + s[1..];
    }
  }

  /** A filter drops something iff some element fails the predicate. */
  lemma {:induction false} FilterShrinks<T(!new)>(s: seq<T>, p: T -> bool)
    ensures |Filter(s, p)| < |s| <==> exists x :: x in s && !p(x)
  {
    if |s| > 0 {
      FilterShrinks(s[1..], p);
      assert s == [s[0]] + s[1..];
      if !p(s[0]) {
        assert s[0] in s;
      } else {
        assert forall x :: x in s ==> x == s[0] || x in s[1..];
      }
    }
  }
}

=== FILE: simulation.dfy ===
/** The simulation state and the per-frame update of `p.draw`, with all
    drawing removed, as a pure function of the state, the frame number and
    the values p5 supplies. */
module Simulation {
  import opened Vectors
  import opened Seqs
  import opened Entities
  import opened P5
  import opened Particles
  import opened Spawner
  import opened Collision
  import opened Targeting
  import opened Agent

  /** The variables the sketch closes over. */
  datatype State = State(pos: Vec, vel: Vec, noiseOffset: real, lastShot: int,
                         trail: seq<Vec>, obstacles: seq<Obstacle>,
                         bullets: seq<Bullet>, particles: seq<Particle>)

  /** The state after `p.setup`: the ship at rest in the middle of an
      empty screen. */
  function Init(screen: Screen): (s: State)
    ensures Inv(s, screen)
    ensures s.pos == Vec(screen.W() / 2.0, screen.H() / 2.0) && s.vel == Zero
  {
    State(Vec(screen.W() / 2.0, screen.H() / 2.0), Zero, 0.0, 0, [], [], [], [])
  }

  /** The obstacle `forEach`: each obstacle steps `2 * normalize(ship -
      obstacle)` towards the ship; its size and vertex count stay. */
  function Approach(os: seq<Obstacle>, agent: Vec, normalize: Vec -> Vec): (r: seq<Obstacle>)
    ensures |r| == |os|
    ensures forall i :: 0 <= i < |os| ==>
              r[i].size == os[i].size && r[i].vertices == os[i].vertices
              && r[i].pos == Add(os[i].pos, Scale(normalize(Sub(agent, os[i].pos)), 2.0))
  {
    seq(|os|, i requires 0 <= i < |os| =>
      os[i].(pos := Add(os[i].pos, Scale(normalize(Sub(agent, os[i].pos)), 2.0))))
  }

  /** `Bullet.update`: one step along the bullet's own, unchanging
      velocity. */
  function Flight(b: Bullet): Bullet {
    Bullet(Add(b.pos, b.vel), b.vel)
  }

  /** The bullet `forEach`: each bullet moves by its own velocity. */
  function Fly(bs: seq<Bullet>): (r: seq<Bullet>)
    ensures |r| == |bs|
    ensures forall i :: 0 <= i < |bs| ==> r[i] == Flight(bs[i])
  {
    seq(|bs|, i requires 0 <= i < |bs| => Flight(bs[i]))
  }

  function OnScreen(screen: Screen): Bullet -> bool {
    (b: Bullet) => InOpen(b.pos, screen.W(), screen.H())
  }

  /** The bullet pruning filter: exactly the bullets strictly inside the
      open screen rectangle stay, in order, with every copy of each. */
  function Prune(bs: seq<Bullet>, screen: Screen): (r: seq<Bullet>)
    ensures Subseq(r, bs)
    ensures forall b :: multiset(r)[b] == if InOpen(b.pos, screen.W(), screen.H()) then multiset(bs)[b] else 0
    ensures forall b :: b in r <==> b in bs && InOpen(b.pos, screen.W(), screen.H())
  {
    FilterIsSubseq(bs, OnScreen(screen));
    FilterMembers(bs, OnScreen(screen));
    FilterCount(bs, OnScreen(screen));
    Filter(bs, OnScreen(screen))
  }

  /** The steering force of the frame. */
  function Force(s: State, lib: Numerics): Vec {
    lib.steer(lib.noise(s.noiseOffset))
  }

  /** The ship's position after steering, before the wrap. */
  function Moved(s: State, lib: Numerics): Vec {
    Add(s.pos, Add(s.vel, Force(s, lib)))
  }

  /** The obstacles and pools after spawning, approach and the hit pass. */
  function Hits(s: State, screen: Screen, frame: nat, lib: Numerics, d: Draws): Outcome {
    var spawned := MaybeSpawn(s.obstacles, screen, frame, d);
    Collide(Approach(spawned, s.pos, lib.normalize), s.bullets, d.spark, 0)
  }

  /** The pools after the targeting pass. */
  function Armory(s: State, screen: Screen, frame: nat, lib: Numerics, d: Draws): Armed {
    var c := Hits(s, screen, frame, lib, d);
    Target(c.obstacles, s.pos, Prune(Fly(c.bullets), screen), s.lastShot, frame, lib.aim)
  }

  /** One execution of `p.draw`, in source order: spawn gate, obstacle
      approach, hit pass, particle update and pruning, bullet flight and
      pruning, targeting, steering, trail, noise step, damping, wrap. */
  function Tick(s: State, screen: Screen, frame: nat, lib: Numerics, d: Draws): State {
    var c := Hits(s, screen, frame, lib, d);
    var a := Armory(s, screen, frame, lib, d);
    var vel := Add(s.vel, Force(s, lib));
    var pos := Moved(s, lib);
    State(Wrap(pos, screen), Scale(vel, DAMPING), s.noiseOffset + NOISE_STEP, a.lastShot,
          PushTrail(s.trail, pos), a.obstacles, a.bullets, Fade(s.particles + c.sparks))
  }

  /** Every obstacle has a shape `SpawnObstacle` can produce. */
  predicate Shaped(os: seq<Obstacle>) {
    forall o :: o in os ==> 10.0 <= o.size < 15.0 && 6 <= o.vertices <= 10
  }

  /** Every bullet is on the closed screen. */
  predicate OnBoard(bs: seq<Bullet>, screen: Screen) {
    forall b :: b in bs ==> InClosed(b.pos, screen.W(), screen.H())
  }

  /** Every particle is alive with lifespan at most `LIFESPAN`. */
  predicate Lively(ps: seq<Particle>) {
    forall p :: p in ps ==> 0 < p.lifespan <= LIFESPAN
  }

  /** Facts every reachable state satisfies: the ship on the closed
      screen, the trail within its bound, obstacles of spawnable shape,
      bullets on the closed screen and particles alive with lifespan at
      most `LIFESPAN`. */
  predicate Inv(s: State, screen: Screen) {
    && InClosed(s.pos, screen.W(), screen.H())
    && |s.trail| <= TRAIL_LENGTH
    && Shaped(s.obstacles)
    && OnBoard(s.bullets, screen)
    && Lively(s.particles)
  }

  /** Spawning adds only a spawnable-shaped obstacle. */
  lemma SpawnShaped(os: seq<Obstacle>, screen: Screen, frame: nat, d: Draws)
    requires Shaped(os)
    ensures Shaped(MaybeSpawn(os, screen, frame, d))
  {
    var r := MaybeSpawn(os, screen, frame, d);
    forall o | o in r ensures 10.0 <= o.size < 15.0 && 6 <= o.vertices <= 10 {
      var i :| 0 <= i < |r| && r[i] == o;
      if i < |os| {
        assert r[i] == r[..|os|][i];
      }
    }
  }

  /** Moving obstacles keeps their shape. */
  lemma ApproachShaped(os: seq<Obstacle>, agent: Vec, normalize: Vec -> Vec)
    requires Shaped(os)
    ensures Shaped(Approach(os, agent, normalize))
  {
    var r := Approach(os, agent, normalize);
    forall o | o in r ensures 10.0 <= o.size < 15.0 && 6 <= o.vertices <= 10 {
      var i :| 0 <= i < |r| && r[i] == o;
      assert os[i] in os;
    }
  }

  /** Spawning, moving and the hit pass keep obstacles spawnable-shaped. */
  lemma HitsShaped(s: State, screen: Screen, frame: nat, lib: Numerics, d: Draws)
    requires Shaped(s.obstacles)
    ensures Shaped(Hits(s, screen, frame, lib, d).obstacles)
  {
    var spawned := MaybeSpawn(s.obstacles, screen, frame, d);
    var moved := Approach(spawned, s.pos, lib.normalize);
    SpawnShaped(s.obstacles, screen, frame, d);
    ApproachShaped(spawned, s.pos, lib.normalize);
    PassKeepsOrder(moved, s.bullets);
    SubseqShorter(Pass(moved, s.bullets).obstacles, moved);
  }

  /** After targeting every bullet is on the closed screen: pruned ones
      strictly inside, a new one at the ship. */
  lemma ArmoryOnBoard(s: State, screen: Screen, frame: nat, lib: Numerics, d: Draws)
    requires InClosed(s.pos, screen.W(), screen.H())
    ensures OnBoard(Armory(s, screen, frame, lib, d).bullets, screen)
  {
    var c := Hits(s, screen, frame, lib, d);
    var flown := Prune(Fly(c.bullets), screen);
    var a := Armory(s, screen, frame, lib, d);
    forall b | b in a.bullets ensures InClosed(b.pos, screen.W(), screen.H()) {
      if b !in flown {
        assert b.pos == s.pos;
      }
    }
  }

  /** Fading old particles together with this frame's sparks leaves only
      lively ones. */
  lemma HitsLively(s: State, screen: Screen, frame: nat, lib: Numerics, d: Draws)
    requires Lively(s.particles)
    ensures Lively(Fade(s.particles + Hits(s, screen, frame, lib, d).sparks))
  {
    var spawned := MaybeSpawn(s.obstacles, screen, frame, d);
    var moved := Approach(spawned, s.pos, lib.normalize);
    var c := Hits(s, screen, frame, lib, d);
    DebrisAt(moved, s.bullets, d.spark, 0);
    assert forall p :: p in s.particles + c.sparks ==> p.lifespan <= LIFESPAN;
  }

  /** Every frame preserves `Inv`. */
  lemma TickPreservesInv(s: State, screen: Screen, frame: nat, lib: Numerics, d: Draws)
    requires Inv(s, screen)
    ensures Inv(Tick(s, screen, frame, lib, d), screen)
  {
    HitsShaped(s, screen, frame, lib, d);
    ArmoryOnBoard(s, screen, frame, lib, d);
    HitsLively(s, screen, frame, lib, d);
  }

  /** The newest trail sample is the ship's position before the wrap, and
      wraps to the ship's new position. */
  lemma TickTrail(s: State, screen: Screen, frame: nat, lib: Numerics, d: Draws)
    ensures var r := Tick(s, screen, frame, lib, d);
            && r.trail[|r.trail| - 1] == Moved(s, lib)
            && Wrap(r.trail[|r.trail| - 1], screen) == r.pos
  {
  }

  /** What firing does to the bullets. When `lastShot` changes, the gate
      was open and the new value is the frame (the `Gate` of
      `TickLastShot`), and the fired bullet is the last one, at the ship.
      Bullets that went through this frame's pruning are strictly on
      screen; only the fired one may sit on the border. */
  lemma TickFiring(s: State, screen: Screen, frame: nat, lib: Numerics, d: Draws)
    ensures var r := Tick(s, screen, frame, lib, d);
            var fired := r.lastShot != s.lastShot;
            && (fired ==> r.lastShot == frame && Ready(frame, s.lastShot))
            && (fired ==> |r.bullets| > 0 && r.bullets[|r.bullets| - 1].pos == s.pos)
            && (forall i :: 0 <= i < |r.bullets| - (if fired then 1 else 0) ==>
                  InOpen(r.bullets[i].pos, screen.W(), screen.H()))
  {
    var r := Tick(s, screen, frame, lib, d);
    var c := Hits(s, screen, frame, lib, d);
    var flown := Prune(Fly(c.bullets), screen);
    var a := Armory(s, screen, frame, lib, d);
    TickLastShot(s, screen, frame, lib, d);
    assert r.bullets == a.bullets && r.lastShot == a.lastShot;
    forall i | 0 <= i < |r.bullets| - (if r.lastShot != s.lastShot then 1 else 0)
      ensures InOpen(r.bullets[i].pos, screen.W(), screen.H())
    {
      assert r.bullets[i] == flown[i];
      assert flown[i] in flown;
    }
  }

  /** The bullets a frame keeps, besides one it fires: the flown bullets
      that went through pruning. */
  function Kept(s: State, screen: Screen, frame: nat, lib: Numerics, d: Draws): seq<Bullet> {
    var r := Tick(s, screen, frame, lib, d);
    r.bullets[..|r.bullets| - (if r.lastShot != s.lastShot then 1 else 0)]
  }

  /** Bullets fly straight: apart from one fired in the frame, the
      bullets after a frame are exactly the old bullets that no moved
      obstacle hits, each advanced once along its own velocity, that end
      up strictly inside the screen. Velocities never change and nothing
      homes in on a target. */
  lemma TickBullets(s: State, screen: Screen, frame: nat, lib: Numerics, d: Draws)
    ensures var moved := Approach(MaybeSpawn(s.obstacles, screen, frame, d), s.pos, lib.normalize);
            forall x :: x in Kept(s, screen, frame, lib, d) <==>
              InOpen(x.pos, screen.W(), screen.H())
              && exists b :: b in s.bullets && Spared(b, moved) && x == Flight(b)
  {
    var moved := Approach(MaybeSpawn(s.obstacles, screen, frame, d), s.pos, lib.normalize);
    var c := Hits(s, screen, frame, lib, d);
    var flown := Prune(Fly(c.bullets), screen);
    assert Kept(s, screen, frame, lib, d) == flown by {
      KeptIsFlown(s, screen, frame, lib, d);
    }
    PassBullets(moved, s.bullets);
    FlownMembers(s.bullets, moved, screen);
  }

  /** Targeting only appends: with the fired bullet removed, the frame's
      bullets are the flown and pruned ones. */
  lemma KeptIsFlown(s: State, screen: Screen, frame: nat, lib: Numerics, d: Draws)
    ensures Kept(s, screen, frame, lib, d) == Prune(Fly(Hits(s, screen, frame, lib, d).bullets), screen)
  {
    var flown := Prune(Fly(Hits(s, screen, frame, lib, d).bullets), screen);
    var r := Tick(s, screen, frame, lib, d);
    assert r.bullets == flown || (r.bullets == flown + [r.bullets[|r.bullets| - 1]] && r.lastShot != s.lastShot);
  }

  /** Membership in the flown and pruned survivors of the hit pass. */
  lemma FlownMembers(bs: seq<Bullet>, os: seq<Obstacle>, screen: Screen)
    ensures forall x :: x in Prune(Fly(Filter(bs, SparedBy(os))), screen) <==>
              InOpen(x.pos, screen.W(), screen.H()) && exists b :: b in bs && Spared(b, os) && x == Flight(b)
  {
    var live := Filter(bs, SparedBy(os));
    FilterMembers(bs, SparedBy(os));
    forall x ensures x in Fly(live) <==> exists b :: b in bs && Spared(b, os) && x == Flight(b) {
      if x in Fly(live) {
        var i :| 0 <= i < |live| && Fly(live)[i] == x;
        assert live[i] in live;
      }
      if exists b :: b in bs && Spared(b, os) && x == Flight(b) {
        var b :| b in bs && Spared(b, os) && x == Flight(b);
        var i :| 0 <= i < |live| && live[i] == b;
        assert Fly(live)[i] == x;
      }
    }
  }

  /** `force.setMag(0.2)` leaves each component of the steering force at
      most 0.2 in size. */
  const STEER: real := 0.2
  /** A component bound that damping keeps: 0.95 * (3.8 + 0.2) == 3.8. */
  const TOP_SPEED: real := 3.8

  function Abs(x: real): real {
    if x < 0.0 then -x else x
  }

  /** Every steering force the library can produce has components at
      most `STEER` in size, as `setMag(0.2)` guarantees. */
  ghost predicate SteerBounded(lib: Numerics) {
    forall n :: Gentle(lib.steer(n))
  }

  /** Both components of a force are at most `STEER` in size. */
  predicate Gentle(f: Vec) {
    Abs(f.x) <= STEER && Abs(f.y) <= STEER
  }

  /** Both velocity components are at most `TOP_SPEED` in size. */
  predicate Slow(v: Vec) {
    Abs(v.x) <= TOP_SPEED && Abs(v.y) <= TOP_SPEED
  }

  lemma DampAxis(v: real, f: real)
    ensures Abs((v + f) * DAMPING) <= DAMPING * (Abs(v) + Abs(f))
  {
  }

  /** A frame's effect on the ship's motion: the velocity gains the
      steering force and is damped, and the noise offset advances. */
  lemma TickMotion(s: State, screen: Screen, frame: nat, lib: Numerics, d: Draws)
    ensures var r := Tick(s, screen, frame, lib, d);
            && r.vel == Scale(Add(s.vel, Force(s, lib)), DAMPING)
            && r.noiseOffset == s.noiseOffset + NOISE_STEP
  {
  }

  /** Steering then damping: each velocity component grows by at most the
      force's and is then scaled by 0.95, so a slow ship stays slow. */
  lemma TickDamps(s: State, screen: Screen, frame: nat, lib: Numerics, d: Draws)
    requires SteerBounded(lib)
    ensures var r := Tick(s, screen, frame, lib, d);
            && Abs(r.vel.x) <= DAMPING * (Abs(s.vel.x) + STEER)
            && Abs(r.vel.y) <= DAMPING * (Abs(s.vel.y) + STEER)
            && (Slow(s.vel) ==> Slow(r.vel))
  {
    var f := Force(s, lib);
    assert Gentle(f) by {
      var n := lib.noise(s.noiseOffset);
      assert f == lib.steer(n);
      assert Gentle(lib.steer(n));
    }
    TickMotion(s, screen, frame, lib, d);
    DampStep(s.vel, f, Tick(s, screen, frame, lib, d).vel);
  }

  /** The arithmetic of `TickDamps`, on vectors alone. */
  lemma DampStep(v: Vec, f: Vec, r: Vec)
    requires Gentle(f)
    requires r == Scale(Add(v, f), DAMPING)
    ensures Abs(r.x) <= DAMPING * (Abs(v.x) + STEER)
    ensures Abs(r.y) <= DAMPING * (Abs(v.y) + STEER)
    ensures Slow(v) ==> Slow(r)
  {
    DampAxis(v.x, f.x);
    DampAxis(v.y, f.y);
  }

  /** Every step of `step` keeps a slow ship slow. */
  ghost predicate KeepsSlow(step: (State, nat) -> State) {
    forall x: State, f: nat :: Slow(x.vel) ==> Slow(step(x, f).vel)
  }

  /** Every step of `step` advances the noise offset by `NOISE_STEP`. */
  ghost predicate AdvancesNoise(step: (State, nat) -> State) {
    forall x: State, f: nat :: step(x, f).noiseOffset == x.noiseOffset + NOISE_STEP
  }

  lemma {:induction false} RunKeepsSlow(s: State, step: (State, nat) -> State, frame: nat, n: nat)
    requires KeepsSlow(step) && Slow(s.vel)
    ensures Slow(Run(s, step, frame, n).vel)
    decreases n
  {
    if n > 0 {
      RunKeepsSlow(step(s, frame), step, frame + 1, n - 1);
    }
  }

  lemma {:induction false} RunAdvancesNoise(s: State, step: (State, nat) -> State, frame: nat, n: nat)
    requires AdvancesNoise(step)
    ensures Run(s, step, frame, n).noiseOffset == s.noiseOffset + NOISE_STEP * n as real
    decreases n
  {
    if n > 0 {
      RunAdvancesNoise(step(s, frame), step, frame + 1, n - 1);
    }
  }

  /** Over any run of frames with a bounded steering force, a ship that
      starts slow (at rest, for instance) stays slow. */
  lemma RunSlow(s: State, screen: Screen, frame: nat, n: nat, lib: Numerics, draws: nat -> Draws)
    requires SteerBounded(lib) && Slow(s.vel)
    ensures Slow(Run(s, Step(screen, lib, draws), frame, n).vel)
  {
    var step := Step(screen, lib, draws);
    forall x: State, f: nat ensures Slow(x.vel) ==> Slow(step(x, f).vel) {
      TickDamps(x, screen, f, lib, draws(f));
    }
    RunKeepsSlow(s, step, frame, n);
  }

  /** Each frame advances the noise offset by `NOISE_STEP`, so after `n`
      frames it has moved by `n * NOISE_STEP`. */
  lemma RunNoise(s: State, screen: Screen, frame: nat, n: nat, lib: Numerics, draws: nat -> Draws)
    ensures Run(s, Step(screen, lib, draws), frame, n).noiseOffset == s.noiseOffset + NOISE_STEP * n as real
  {
    var step := Step(screen, lib, draws);
    forall x: State, f: nat ensures step(x, f).noiseOffset == x.noiseOffset + NOISE_STEP {
      TickMotion(x, screen, f, lib, draws(f));
    }
    RunAdvancesNoise(s, step, frame, n);
  }

  /** One frame of a run, as a function value. */
  function Step(screen: Screen, lib: Numerics, draws: nat -> Draws): (State, nat) -> State {
    (x: State, f: nat) => Tick(x, screen, f, lib, draws(f))
  }

  /** `n` frames run with `step` from frame number `frame` on. */
  function Run(s: State, step: (State, nat) -> State, frame: nat, n: nat): State
    decreases n
  {
    if n == 0 then s else Run(step(s, frame), step, frame + 1, n - 1)
  }

  /** The positions pushed onto the trail during `n` frames run with
      `step`, `pushed(x, f)` being the one pushed by frame `f` from `x`. */
  function Pushes(s: State, step: (State, nat) -> State, pushed: (State, nat) -> Vec, frame: nat, n: nat): (ps: seq<Vec>)
    ensures |ps| == n
    decreases n
  {
    if n == 0 then [] else [pushed(s, frame)] + Pushes(step(s, frame), step, pushed, frame + 1, n - 1)
  }

  /** The newest `TRAIL_LENGTH` samples of a history, oldest first. */
  function Newest(all: seq<Vec>): (r: seq<Vec>)
    ensures |r| == Min(|all|, TRAIL_LENGTH)
  {
    all[|all| - Min(|all|, TRAIL_LENGTH)..]
  }

  /** Pushing `p` onto a trail within the bound does not change the
      newest window of the history that follows. */
  lemma PushKeepsWindow(t: seq<Vec>, p: Vec, rest: seq<Vec>)
    requires |t| <= TRAIL_LENGTH
    ensures Newest(PushTrail(t, p) + rest) == Newest(t + [p] + rest)
  {
    var t1 := PushTrail(t, p);
    var j := |t| + 1 - |t1|;
    var all := t + [p] + rest;
    var all1 := t1 + rest;
    assert all1 == all[j..] by {
      assert t1 == (t + [p])[j..];
    }
    assert Min(|all1|, TRAIL_LENGTH) == Min(|all|, TRAIL_LENGTH);
  }

  /** Every step of `step` pushes `pushed` onto the trail. */
  ghost predicate PushesBy(step: (State, nat) -> State, pushed: (State, nat) -> Vec) {
    forall x: State, f: nat :: step(x, f).trail == PushTrail(x.trail, pushed(x, f))
  }

  /** The trail after pushing each of `ps` in turn onto `t`. */
  function Replay(t: seq<Vec>, ps: seq<Vec>): seq<Vec>
    decreases |ps|
  {
    if |ps| == 0 then t else Replay(PushTrail(t, ps[0]), ps[1..])
  }

  /** Pushing samples one at a time keeps the newest `TRAIL_LENGTH` of
      them. */
  lemma {:induction false} ReplayKeepsRecent(t: seq<Vec>, ps: seq<Vec>)
    requires |t| <= TRAIL_LENGTH
    ensures Replay(t, ps) == Newest(t + ps)
    decreases |ps|
  {
    if |ps| == 0 {
      assert t + ps == t;
    } else {
      var t1 := PushTrail(t, ps[0]);
      ReplayKeepsRecent(t1, ps[1..]);
      assert ps == [ps[0]] + ps[1..];
      KeepsRecentStep(t, ps[0], t1, ps[1..], ps, Replay(t, ps));
    }
  }

  /** The trail after a run is the replay of the pushes. */
  lemma {:induction false} RunReplays(s: State, step: (State, nat) -> State, pushed: (State, nat) -> Vec, frame: nat, n: nat)
    requires PushesBy(step, pushed)
    ensures Run(s, step, frame, n).trail == Replay(s.trail, Pushes(s, step, pushed, frame, n))
    decreases n
  {
    if n > 0 {
      var s1 := step(s, frame);
      var rest := Pushes(s1, step, pushed, frame + 1, n - 1);
      RunReplays(s1, step, pushed, frame + 1, n - 1);
      RunUnfold(s, step, pushed, frame, n);
      ReplayStep(s.trail, pushed(s, frame), rest, s1.trail);
    }
  }

  /** One frame of a run and of its pushes. */
  lemma RunUnfold(s: State, step: (State, nat) -> State, pushed: (State, nat) -> Vec, frame: nat, n: nat)
    requires n > 0
    ensures Run(s, step, frame, n) == Run(step(s, frame), step, frame + 1, n - 1)
    ensures Pushes(s, step, pushed, frame, n) == [pushed(s, frame)] + Pushes(step(s, frame), step, pushed, frame + 1, n - 1)
  {
  }

  lemma ReplayStep(t: seq<Vec>, p: Vec, rest: seq<Vec>, t1: seq<Vec>)
    requires t1 == PushTrail(t, p)
    ensures Replay(t, [p] + rest) == Replay(t1, rest)
  {
    assert ([p] + rest)[0] == p && ([p] + rest)[1..] == rest;
  }

  /** The trail is a FIFO queue of at most `TRAIL_LENGTH` samples: after
      any run it holds the newest min(|trail| + n, 10) samples of the old
      trail followed by the positions pushed, oldest first. */
  lemma RunKeepsRecent(s: State, step: (State, nat) -> State, pushed: (State, nat) -> Vec, frame: nat, n: nat)
    requires |s.trail| <= TRAIL_LENGTH
    requires PushesBy(step, pushed)
    ensures Run(s, step, frame, n).trail == Newest(s.trail + Pushes(s, step, pushed, frame, n))
  {
    RunReplays(s, step, pushed, frame, n);
    ReplayKeepsRecent(s.trail, Pushes(s, step, pushed, frame, n));
  }

  /** One step of `ReplayKeepsRecent`'s induction. */
  lemma KeepsRecentStep(t: seq<Vec>, p: Vec, t1: seq<Vec>, rest: seq<Vec>, ps: seq<Vec>, last: seq<Vec>)
    requires |t| <= TRAIL_LENGTH && t1 == PushTrail(t, p)
    requires ps == [p] + rest && last == Newest(t1 + rest)
    ensures last == Newest(t + ps)
  {
    PushKeepsWindow(t, p, rest);
    assert t + ps == t + [p] + rest;
  }

  /** One frame pushes the pre-wrap ship position onto the trail. */
  lemma TickPushes(s: State, screen: Screen, frame: nat, lib: Numerics, d: Draws)
    ensures Tick(s, screen, frame, lib, d).trail == PushTrail(s.trail, Moved(s, lib))
  {
  }

  /** Over frames of the simulation, the trail holds exactly the last
      min(|trail| + n, 10) of the old samples and the pre-wrap ship
      positions of the `n` frames; from `Init`, after 15 frames it holds
      the positions of frames 6 to 15. */
  lemma RunTrail(s: State, screen: Screen, frame: nat, n: nat, lib: Numerics, draws: nat -> Draws)
    requires |s.trail| <= TRAIL_LENGTH
    ensures var step := Step(screen, lib, draws);
            var all := s.trail + Pushes(s, step, (x: State, f: nat) => Moved(x, lib), frame, n);
            && Run(s, step, frame, n).trail == all[|all| - Min(|all|, TRAIL_LENGTH)..]
            && |Run(s, step, frame, n).trail| == Min(|s.trail| + n, TRAIL_LENGTH)
  {
    var step := Step(screen, lib, draws);
    var pushed := (x: State, f: nat) => Moved(x, lib);
    forall x: State, f: nat ensures step(x, f).trail == PushTrail(x.trail, pushed(x, f)) {
      TickPushes(x, screen, f, lib, draws(f));
    }
    assert PushesBy(step, pushed);
    RunKeepsRecent(s, step, pushed, frame, n);
  }

  /** The values of `lastShot` before the first of `n` frames run from
      `frame` with `step` and after each of them. */
  function ShotTrace(s: State, step: (State, nat) -> State, frame: nat, n: nat): (ls: seq<int>)
    ensures |ls| == n + 1 && ls[0] == s.lastShot
    decreases n
  {
    if n == 0 then [s.lastShot] else [s.lastShot] + ShotTrace(step(s, frame), step, frame + 1, n - 1)
  }

  /** One frame's effect on `lastShot`: kept, or set to the frame number
      when the gate was open. */
  predicate Gate(prev: int, next: int, frame: int) {
    next == prev || (next == frame && frame - prev > SHOOT_RATE)
  }

  /** Each step of a `lastShot` trace starting at frame `frame` obeys the
      gate. */
  predicate Gated(ls: seq<int>, frame: int) {
    forall i :: 0 <= i < |ls| - 1 ==> Gate(ls[i], ls[i + 1], frame + i)
  }

  /** Number of steps of a trace that change the value: the shots. */
  function Changes(ls: seq<int>): nat
    decreases |ls|
  {
    if |ls| <= 1 then 0 else (if ls[1] != ls[0] then 1 else 0) + Changes(ls[1..])
  }

  /** Number of frames among the `n` run from `frame` in which the ship
      fires, a shot being recorded as a change of `lastShot`. */
  function Shots(s: State, screen: Screen, frame: nat, n: nat, lib: Numerics, draws: nat -> Draws): nat {
    Changes(ShotTrace(s, Step(screen, lib, draws), frame, n))
  }

  function Min(a: int, b: int): int {
    if a < b then a else b
  }

  /** A frame either leaves `lastShot` alone or, when the gate was open,
      sets it to the frame number. */
  lemma TickLastShot(s: State, screen: Screen, frame: nat, lib: Numerics, d: Draws)
    ensures Gate(s.lastShot, Tick(s, screen, frame, lib, d).lastShot, frame)
  {
  }

  /** The `lastShot` trace of a run whose every step obeys the gate is
      gated. */
  lemma {:induction false} ShotTraceGated(s: State, step: (State, nat) -> State, frame: nat, n: nat)
    requires forall x: State, f: nat :: Gate(x.lastShot, step(x, f).lastShot, f)
    ensures Gated(ShotTrace(s, step, frame, n), frame)
    decreases n
  {
    if n > 0 {
      var rest := ShotTrace(step(s, frame), step, frame + 1, n - 1);
      var ls := ShotTrace(s, step, frame, n);
      assert ls == [s.lastShot] + rest;
      ShotTraceGated(step(s, frame), step, frame + 1, n - 1);
      forall i | 0 <= i < |ls| - 1 ensures Gate(ls[i], ls[i + 1], frame + i) {
        if i > 0 {
          assert ls[i] == rest[i - 1] && ls[i + 1] == rest[i];
        }
      }
    }
  }

  lemma DivMonotone(a: int, b: int)
    requires 0 <= a <= b
    ensures a / (SHOOT_RATE + 1) <= b / (SHOOT_RATE + 1)
  {
  }

  /** Shots in a gated trace are more than `SHOOT_RATE` steps apart, so a
      trace of `k` steps holds at most ceil(k / 31) of them, fewer when
      the last shot before it is recent. */
  lemma {:induction false} GatedChanges(ls: seq<int>, frame: int)
    requires |ls| >= 1 && ls[0] < frame && Gated(ls, frame)
    ensures Changes(ls) <= (|ls| - 1 + Min(SHOOT_RATE, frame - ls[0] - 1)) / (SHOOT_RATE + 1)
    decreases |ls|
  {
    if |ls| > 1 {
      var rest := ls[1..];
      forall i | 0 <= i < |rest| - 1 ensures Gate(rest[i], rest[i + 1], frame + 1 + i) {
        assert rest[i] == ls[i + 1] && rest[i + 1] == ls[i + 2];
      }
      assert rest[0] == ls[1];
      GatedChanges(rest, frame + 1);
      var k := |ls| - 1;
      var m := Min(SHOOT_RATE, frame - ls[0] - 1);
      var m' := Min(SHOOT_RATE, frame + 1 - ls[1] - 1);
      if ls[1] != ls[0] {
        assert ls[1] == frame && m == SHOOT_RATE && m' == 0;
        assert (k - 1) / (SHOOT_RATE + 1) + 1 == (k + SHOOT_RATE) / (SHOOT_RATE + 1);
      } else {
        assert m' <= m + 1;
        DivMonotone(k - 1 + m', k + m);
      }
    }
  }

  /** The fire-rate gate over a run: `n` frames hold at most ceil(n / 31)
      shots, fewer when the last shot is recent. From `Init` (last shot
      at 0) and p5's first frame 1, 200 frames hold at most 6 shots. */
  lemma FireRate(s: State, screen: Screen, frame: nat, n: nat, lib: Numerics, draws: nat -> Draws)
    requires s.lastShot < frame
    ensures Shots(s, screen, frame, n, lib, draws) <= (n + Min(SHOOT_RATE, frame - s.lastShot - 1)) / (SHOOT_RATE + 1)
  {
    var step := Step(screen, lib, draws);
    forall x: State, f: nat ensures Gate(x.lastShot, step(x, f).lastShot, f) {
      TickLastShot(x, screen, f, lib, draws(f));
    }
    ShotTraceGated(s, step, frame, n);
    GatedChanges(ShotTrace(s, step, frame, n), frame);
  }

  /** From the start state and p5's first frame, 15 frames leave the
      trail holding exactly the pre-wrap ship positions of frames 6 to
      15, oldest first. */
  lemma InitTrail(screen: Screen, lib: Numerics, draws: nat -> Draws)
    ensures var step := Step(screen, lib, draws);
            var ps := Pushes(Init(screen), step, (x: State, f: nat) => Moved(x, lib), 1, 15);
            Run(Init(screen), step, 1, 15).trail == ps[5..]
  {
    var step := Step(screen, lib, draws);
    var ps := Pushes(Init(screen), step, (x: State, f: nat) => Moved(x, lib), 1, 15);
    RunTrail(Init(screen), screen, 1, 15, lib, draws);
    assert Init(screen).trail + ps == ps;
  }

  /** From the start state and p5's first frame, 200 frames fire at most
      6 shots. */
  lemma InitFireRate(screen: Screen, lib: Numerics, draws: nat -> Draws)
    ensures Shots(Init(screen), screen, 1, 200, lib, draws) <= 6
  {
    FireRate(Init(screen), screen, 1, 200, lib, draws);
  }
}

=== FILE: spawner.dfy ===
/** Periodic obstacle generation just outside one edge of the screen. */
module Spawner {
  import opened Vectors
  import opened Entities
  import opened P5

  /** A new obstacle every `OBSTACLE_RATE` frames. */
  const OBSTACLE_RATE: nat := 100
  /** Distance outside the chosen edge at which obstacles appear. */
  const MARGIN: real := 10.0

  /** `floor(random(4))`: 0 top, 1 right, 2 bottom, 3 left. */
  function Edge(u: Unit): (e: int)
    ensures 0 <= e <= 3
  {
    Random(u, 0.0, 4.0).Floor
  }

  /** `spawnObstacle`: an obstacle `MARGIN` beyond the edge picked by
      `d.edge`, at a uniform point along that edge, with size in [10,15)
      and 6 to 10 vertices. */
  function SpawnObstacle(screen: Screen, d: Draws): (o: Obstacle)
    ensures 10.0 <= o.size < 15.0
    ensures 6 <= o.vertices <= 10
    ensures Edge(d.edge) == 0 ==> o.pos.y == -MARGIN && 0.0 <= o.pos.x && (o.pos.x < screen.W() || screen.width == 0)
    ensures Edge(d.edge) == 1 ==> o.pos.x == screen.W() + MARGIN && 0.0 <= o.pos.y && (o.pos.y < screen.H() || screen.height == 0)
    ensures Edge(d.edge) == 2 ==> o.pos.y == screen.H() + MARGIN && 0.0 <= o.pos.x && (o.pos.x < screen.W() || screen.width == 0)
    ensures Edge(d.edge) == 3 ==> o.pos.x == -MARGIN && 0.0 <= o.pos.y && (o.pos.y < screen.H() || screen.height == 0)
  {
    var pos :=
      match Edge(d.edge)
      case 0 => Vec(Random(d.along, 0.0, screen.W()), -MARGIN)
      case 1 => Vec(screen.W() + MARGIN, Random(d.along, 0.0, screen.H()))
      case 2 => Vec(Random(d.along, 0.0, screen.W()), screen.H() + MARGIN)
      case _ => Vec(-MARGIN, Random(d.along, 0.0, screen.H()));
    Obstacle(pos, Random(d.size, 10.0, 15.0), 6 + Random(d.vertices, 0.0, 5.0).Floor)
  }

  /** Every spawned obstacle starts off screen, `MARGIN` beyond the
      closed screen rectangle along one axis. */
  lemma SpawnedOffscreen(screen: Screen, d: Draws)
    ensures !InClosed(SpawnObstacle(screen, d).pos, screen.W(), screen.H())
    ensures var p := SpawnObstacle(screen, d).pos;
            p.x == -MARGIN || p.x == screen.W() + MARGIN || p.y == -MARGIN || p.y == screen.H() + MARGIN
  {
    var e := Edge(d.edge);
    assert e == 0 || e == 1 || e == 2 || e == 3;
  }

  /** The spawn gate of a frame: exactly one obstacle is appended when
      the frame number is a multiple of `OBSTACLE_RATE`, none otherwise. */
  function MaybeSpawn(os: seq<Obstacle>, screen: Screen, frame: nat, d: Draws): (r: seq<Obstacle>)
    ensures |r| == |os| + (if frame % OBSTACLE_RATE == 0 then 1 else 0)
    ensures r[..|os|] == os
    ensures |r| > |os| ==> r[|os|] == SpawnObstacle(screen, d)
  {
    if frame % OBSTACLE_RATE == 0 then os + [SpawnObstacle(screen, d)] else os
  }
}

=== FILE: targeting.dfy ===
/** The firing policy: the ship shoots at the first obstacle within
    range, at most once per `SHOOT_RATE` frames. */
module Targeting {
  import opened Vectors
  import opened Entities

  /** Minimum number of frames strictly exceeded between two shots. */
  const SHOOT_RATE: int := 30
  /** Obstacles closer than this are targeted. */
  const RANGE: real := 500.0

  /** `dirToObstacle.mag() < 500`. */
  predicate InRange(o: Obstacle, agent: Vec) {
    Within(o.pos, agent, RANGE)
  }

  /** `InRange` is the sketch's test `|obstacle - ship| < 500` for the
      true distance `d`. */
  lemma InRangeIsDistanceBelow(o: Obstacle, agent: Vec, d: real)
    requires d >= 0.0 && d * d == DistSq(o.pos, agent)
    ensures InRange(o, agent) <==> d < RANGE
  {
    WithinIsDistanceBelow(o.pos, agent, RANGE, d);
  }

  /** The fire-rate gate `frameCount - lastShot > shootRate`. */
  predicate Ready(frame: nat, lastShot: int) {
    frame - lastShot > SHOOT_RATE
  }

  /** Index of the first obstacle in range, or `|os|` when none is. */
  function FirstInRange(os: seq<Obstacle>, agent: Vec): (k: nat)
    ensures k <= |os|
    ensures forall j :: 0 <= j < k ==> !InRange(os[j], agent)
    ensures k < |os| ==> InRange(os[k], agent)
    decreases |os|
  {
    if |os| == 0 then 0
    else if InRange(os[0], agent) then 0
    else 1 + FirstInRange(os[1..], agent)
  }

  /** `shoot`: a bullet leaves the ship's position with the velocity
      `aim` gives for the direction `dir`. */
  function Shot(agent: Vec, dir: Vec, aim: Vec -> Vec): Bullet {
    Bullet(agent, aim(dir))
  }

  /** The pools after the targeting pass. */
  datatype Armed = Armed(obstacles: seq<Obstacle>, bullets: seq<Bullet>, lastShot: int)

  /** The targeting `obstacles.filter`: for each obstacle in order, if it
      is in range and the gate is open, shoot at it and close the gate by
      recording the frame; every obstacle is kept. Since shooting closes
      the gate for the rest of the frame, the pass adds a bullet exactly
      when some obstacle is in range and the gate was open on entry, and
      that bullet is aimed at the first obstacle in range. */
  function Target(os: seq<Obstacle>, agent: Vec, bs: seq<Bullet>, lastShot: int, frame: nat,
                  aim: Vec -> Vec): (r: Armed)
    ensures r.obstacles == os
    ensures var k := FirstInRange(os, agent);
            if k < |os| && Ready(frame, lastShot) then
              r.bullets == bs + [Shot(agent, Sub(os[k].pos, agent), aim)] && r.lastShot == frame
            else
              r.bullets == bs && r.lastShot == lastShot
    decreases |os|
  {
    if |os| == 0 then Armed([], bs, lastShot)
    else
      var o := os[0];
      var fire := InRange(o, agent) && Ready(frame, lastShot);
      var bs1 := if fire then bs + [Shot(agent, Sub(o.pos, agent), aim)] else bs;
      var last1 := if fire then frame as int else lastShot;
      var rest := Target(os[1..], agent, bs1, last1, frame, aim);
      Armed([o] + rest.obstacles, rest.bullets, rest.lastShot)
  }
}

=== FILE: vectors.dfy ===
/** Plane vectors with exact real coordinates, standing in for p5's
    mutable `p5.Vector`. Every operation returns a fresh value, so the
    `copy()` calls of the sketch need no counterpart. */
module Vectors {

  datatype Vec = Vec(x: real, y: real)

  const Zero: Vec := Vec(0.0, 0.0)

  function Add(a: Vec, b: Vec): Vec {
    Vec(a.x + b.x, a.y + b.y)
  }

  function Sub(a: Vec, b: Vec): Vec {
    Vec(a.x - b.x, a.y - b.y)
  }

  function Scale(a: Vec, k: real): Vec {
    Vec(a.x * k, a.y * k)
  }

  /** Squared length; the sketch's `mag()` and `dist()` are its square root. */
  function MagSq(a: Vec): real {
    a.x * a.x + a.y * a.y
  }

  function DistSq(a: Vec, b: Vec): real {
    MagSq(Sub(a, b))
  }

  /** The point `a` lies strictly closer than `r` to `b`: the sketch's
      `dist(a, b) < r`, stated without a square root. */
  predicate Within(a: Vec, b: Vec, r: real) {
    r > 0.0 && DistSq(a, b) < r * r
  }

  lemma SquareMonotone(d: real, r: real)
    requires 0.0 <= d < r
    ensures d * d < r * r
  {
    var gap, sum := r - d, r + d;
    assert gap > 0.0 && sum > 0.0;
    assert gap * sum > 0.0;
    assert gap * sum == r * r - d * d;
  }

  /** `Within` agrees with the Euclidean test `d < r` for the true
      distance `d`, whatever the sign of `r`. */
  lemma WithinIsDistanceBelow(a: Vec, b: Vec, r: real, d: real)
    requires d >= 0.0 && d * d == DistSq(a, b)
    ensures Within(a, b, r) <==> d < r
  {
    if d < r {
      SquareMonotone(d, r);
    } else if r > 0.0 {
      assert (d - r) * (d + r) >= 0.0;
      assert (d - r) * (d + r) == d * d - r * r;
    }
  }

  /** A point inside the closed rectangle [0,w] x [0,h]. */
  predicate InClosed(p: Vec, w: real, h: real) {
    0.0 <= p.x <= w && 0.0 <= p.y <= h
  }

  /** A point inside the open rectangle (0,w) x (0,h). */
  predicate InOpen(p: Vec, w: real, h: real) {
    0.0 < p.x < w && 0.0 < p.y < h
  }
}
